=== FILE: README.md ===
# Token-bucket limiter, metrics store and functional options

A Dafny model of three small pieces of the `practice` repository:

- **`rate/rate.go`**: a token-bucket rate limiter. A `Limiter` holds a rate, a
  burst, a token balance and the instant of its last update. `AllowN(now, n)`
  and `ReserveN(now, n)` both run one transition, `reserveN`. That transition
  first computes a proposed balance with `advance`. It then either commits
  the balance less `n` together with `last := now`, or keeps the balance and
  takes over only the clamped last update. Each call is one pure function
  from the old state to the new state and the answer (`RateLimit.Reserve`).
  Go's mutex makes each call atomic, and a pure function is atomic
  by construction.
- **`prometheus/controller/store.go`**: the in-memory store of metric names
  per pod id. Here it is a `map<string, set<string>>` value.
- **`decorator/main.go`**: functional options. Each option is a function
  from `Config` to `Config`, and `ApplyConfig` runs them first to last.

Modules:

- `RateLimit` (`rate.dfy`): the limiter itself.
- `RateLimitProperties` (`rate_properties.dfy`): lemmas relating calls.
- `RateLimitTraces` (`rate_traces.dfy`): the admission traces of
  `rate/rate_test.go`.
- `RateLimitRefill` (`rate_refill.dfy`): the refill finding below.
- `MetricsStore` (`store.dfy`): the metrics store.
- `Decorator` (`decorator.dfy`): the functional options.
- `Wrappers` (`wrappers.dfy`): `Option`.

Numbers:

- Time is a whole number of nanoseconds. A fresh limiter's `last` is the
  zero instant 0.
- A rate is `Inf` or the exact rational `Limited(events, perNanos)`, meaning
  `events` per `perNanos` nanoseconds. `Hz(k)` is Go's `Limit(k)`, and
  `Every(d)` is `Limited(1, d)`. This covers the 0.4 events per second of
  `Every(2.5s)` without floats.
- `tokensToDuration(k)` is `k * perNanos / events` and `durationToTokens(d)`
  is `d * events / perNanos`. Both truncate toward zero, as Go's
  float-to-integer conversion does. For negative arguments this differs from
  floor division. Negative arguments occur once the balance exceeds the burst.
- `Inf` gives a zero duration and adds no tokens.
- Go's `InfDuration`, the largest `time.Duration`, is the `InfDuration` case
  of `MaxFutureTime`. Every wait respects it.

Where the code departs from the usual token-bucket guarantees, the model
follows the code:

- From a balance within `[0, burst]`, a request for zero or a negative
  number of events is admitted. It still commits `last := now` and the
  advanced balance less `n` (`NonPositiveRequestCommits`). From a negative balance
  the advanced balance may not cover it, and `AllowN` then rejects it;
  `ReserveN` admits it whatever the balance. A negative count refunds tokens
  and can lift the balance above the burst (`NegativeRequestOverfills`).
- `last` moves backwards when a call presents an earlier instant, whether the
  call is admitted or not (`LastFollowsBackwardClock`).
- The balance leaves `[0, burst]` in three cases:
  - `ReserveN` reserves against a future refill (`ReserveDrivesTokensNegative`);
  - with `Inf`, any `n <= burst` is admitted (`InfDrivesTokensNegative`);
  - above one event per nanosecond, a deficit worth less than a nanosecond is
    admitted (`FastRateOverdraws`).

  The bound is kept by `AllowN` of non-negative counts at rates of at most one
  event per nanosecond (`AllowPreservesCapacity`).
- With `Inf`, a request above the burst is still rejected.

## Model

| member | source | states |
|---|---|---|
| RateLimit.TokensToDuration | rate/rate.go:11-13 | the duration is the whole number of nanoseconds `k` tokens take, truncated toward zero; zero for `Inf` |
| RateLimit.DurationToTokens | rate/rate.go:15-17 | the whole number of tokens earned over `d`, truncated toward zero; zero for `Inf` (exact only at `d = 0`, see below) |
| RateLimit.TokensRoundTrip | rate/rate.go:11-17 | converting `k` tokens to a duration and back lies between 0 and `k`, so the conversion never overshoots |
| RateLimit.Every | rate/rate.go:23-29 | unlimited exactly when the interval is not positive; otherwise the rate is the reciprocal of the interval in seconds |
| RateLimit.NewLimiter | rate/rate.go:40-45 | a new limiter has the given rate and burst, no tokens and the zero last update |
| RateLimit.Advance | rate/rate.go:92-108 | last is clamped to `min(last, now)`; `Inf` adds nothing; from a balance at most the burst, the proposal stays between the balance and the burst; from above the burst, it falls back toward the burst but not below it; no tokens without elapsed time |
| RateLimit.WaitFor | rate/rate.go:70-74 | the wait is zero without a deficit; otherwise it is the whole number of nanoseconds the deficit takes to refill |
| RateLimit.WaitWithin | rate/rate.go:70-76 | at a finite rate, the wait for a balance is at most `d` nanoseconds exactly when the deficit times the nanoseconds per event is below `(d + 1)` times the events |
| RateLimit.Decide | rate/rate.go:70-87 | limit and burst never change; a request is accepted exactly when it is within the burst and its wait fits: always with `InfDuration`, never with a negative tolerated wait, for `Inf` whenever `d >= 0`, and otherwise when the deficit refills within `d` nanoseconds; success commits the proposal less `n` at `now`; rejection keeps the balance and takes over the clamped last update |
| RateLimit.Reserve | rate/rate.go:64-90 | one transition: over-burst requests are rejected; with `InfDuration` every request within the burst is accepted; a negative tolerated wait accepts nothing (the finite case is `ReserveAcceptance`); success commits `Advance(now) - n` with `last = now`; rejection leaves the state except `last = min(last, now)` |
| RateLimit.ReserveAcceptance | rate/rate.go:64-76 | `reserveN` with a tolerated wait of `d >= 0` accepts exactly when `n <= burst` and the deficit left after the advanced balance refills within `d` nanoseconds; with `Inf`, exactly when `n <= burst` |
| RateLimit.AllowN | rate/rate.go:53-55 | `reserveN` with zero tolerated wait: at a finite rate it admits exactly when `n <= burst` and the deficit refills in under a nanosecond, and with `Inf` exactly when `n <= burst`; an admission never leaves a deficit worth a whole nanosecond of refill |
| RateLimit.ReserveN | rate/rate.go:57-62 | admitted exactly when `n <= burst`, committing the advanced balance less `n` even if negative |
| RateLimitProperties.EveryExamples | rate/rate_test.go:21-55 | `Every` of 0 and -1 is `Inf`; 1ns, 100ns, 1s, 2.5s and MaxInt64 ns give 1e9, 1e7, 1, 0.4 and 1e9/MaxInt64 events per second |
| RateLimitProperties.AllowImpliesReserve | rate/rate.go:53-62 | from one state, an `AllowN` admission is a `ReserveN` admission with the same new state |
| RateLimitProperties.AllowIffBalanceCovers | rate/rate.go:68-76 | at most one event per nanosecond: `AllowN` admits iff `n <= burst` and the advanced balance covers `n` |
| RateLimitProperties.InfAllowsUpToBurst | rate/rate.go:64-76 | with `Inf`, `AllowN` admits iff `n <= burst` and consumes exactly `n` |
| RateLimitProperties.AllowPreservesCapacity | rate/rate.go:64-90 | `0 <= tokens <= burst` is kept by `AllowN` of non-negative counts at rates of at most one event per nanosecond |
| RateLimitProperties.BurstBoundPreserved | rate/rate.go:64-90 | no call with `n >= 0` lifts the balance above the burst |
| RateLimitProperties.RejectionLeavesNoTrace | rate/rate.go:82-87 | after a rejection every call at the same instant behaves as without it; without a backward clock the state is unchanged |
| RateLimitProperties.AdvanceAntitoneInLast | rate/rate.go:92-104 | an earlier last update never proposes a smaller balance |
| RateLimitProperties.AdvanceMonotoneInNow | rate/rate.go:92-104 | a later instant never proposes a smaller balance |
| RateLimitProperties.RejectionNeverDisadvantages | rate/rate.go:85-87 | after a rejected call the proposed balance at every later instant is at least what it was before |
| RateLimitProperties.SplitEqualsCombined | rate/rate.go:68-84 | two admissions at one instant covered by the balance equal one admission of their sum |
| RateLimitProperties.LastFollowsBackwardClock | rate/rate.go:82-87 | with a backward clock every call sets `last` to the presented instant |
| RateLimitProperties.NonPositiveRequestCommits | rate/rate.go:71-84 | from a balance within `[0, burst]`, a request for `n <= 0` events is admitted and commits `now` and the advanced balance less `n` |
| RateLimitProperties.NegativeRequestOverfills | rate/rate.go:71-84 | a negative count lifts the balance above the burst |
| RateLimitProperties.ReserveDrivesTokensNegative | rate/rate.go:60-62 | `ReserveN` admits an uncovered request and leaves a negative balance |
| RateLimitProperties.InfDrivesTokensNegative | rate/rate.go:11-19 | with `Inf` repeated full-burst requests are all admitted and the balance keeps falling |
| RateLimitProperties.FastRateOverdraws | rate/rate.go:70-76 | above one event per nanosecond a one-token deficit is admitted by `AllowN` |
| RateLimitTraces.Run | rate/rate_test.go:75-82 | one answer per call, each call starting from the state the previous one left |
| RateLimitTraces.Burst1Trace | rate/rate_test.go:84-96 | rate 10/s, burst 1: the nine calls answer ✓✗✗✓✗✗✗✓✗ |
| RateLimitTraces.Burst3Trace | rate/rate_test.go:98-111 | rate 10/s, burst 3: the ten calls answer ✓✓✗✓✗✓✓✓✓✓ |
| RateLimitTraces.RepeatedAllowAtOneInstant | rate/rate.go:64-90 | repeated one-event calls at the last update's instant admit `min(k, tokens)` |
| RateLimitTraces.SimultaneousRequests | rate/rate_test.go:113-140 | `k` simultaneous one-event calls to a fresh 1/s, burst-5 limiter admit `min(k, 5)`, so 5 of 15 |
| RateLimitRefill.AdvanceIntended | rate/rate.go:92-108 | the intended refill never exceeds the burst and never loses tokens from a balance within the burst |
| RateLimitRefill.ReserveIntended | rate/rate.go:64-90 | the same decision as `reserveN`, on top of the intended refill |
| RateLimitRefill.RefillsToBurst | rate/rate.go:98-107 | once the elapsed time has earned the missing tokens, the intended refill fills the bucket to the burst |
| RateLimitRefill.IntendedAdmitsBurstAfterRefill | rate/rate.go:98-107 | a refilled bucket admits a whole burst at once and is left empty |
| RateLimitRefill.OneShortNeverRefills | rate/rate.go:98-104 | as written, at 3/s a bucket one token short of its burst stays one token short at every instant |
| RateLimitRefill.EmptyBurstThreeRefills | rate/rate.go:98-104 | as written, an empty 3/s bucket of burst 3 is full two seconds later, since three tokens take a whole second |
| RateLimitRefill.AdvanceBeforeCap | rate/rate.go:98-107 | as written, while the elapsed time is within the cap the refill equals the intended `min(tokens + earned, burst)`, so every lost token is lost to the cap |
| RateLimitRefill.ThirdSecondRefillBelowCap | rate/rate.go:98-107 | as written, an empty 3/s bucket of burst 10 earns 3 tokens in its first second |
| RateLimitRefill.CapLosesAToken | rate/rate.go:98-104 | as written, when `k` missing tokens do not take a whole number of nanoseconds, the capped time earns back fewer than `k` |
| RateLimitRefill.CapLosesAtMostOne | rate/rate.go:98-104 | as written, at rates of at most one event per nanosecond the cap loses at most one token |
| RateLimitRefill.FastRateLosesEverything | rate/rate.go:98-104 | as written, at 10 events per nanosecond an empty bucket of burst 9 has a zero cap and never refills |
| RateLimitRefill.ThirdSecondTokenIsLost | rate/rate.go:98-104 | as written, at 3/s and burst 1 an empty bucket stays empty at every instant and a single event is rejected |
| RateLimitRefill.ThirdSecondLimiterNeverAdmits | rate/rate.go:92-108 | as written, such a limiter rejects every one-event call of every sequence |
| RateLimitRefill.ThirdSecondLimiterAdmitsWhenIntended | rate/rate.go:40-45 | corrected, `NewLimiter(3, 1)` admits one event from a third of a second on |
| RateLimitRefill.ExactTokensToDuration | rate/rate.go:11-13 | when a token takes `q` whole nanoseconds, `k` tokens take exactly `k * q` |
| RateLimitRefill.ExactDurationToTokens | rate/rate.go:15-17 | when a token takes `q` whole nanoseconds, `k * q` nanoseconds earn exactly `k` tokens |
| RateLimitRefill.ExactRatesAgree | rate/rate.go:92-108 | for `Inf` and for rates with whole nanoseconds per token, the code's refill equals the intended one |
| RateLimitRefill.ExactRatesReserveAgree | rate/rate.go:64-90 | for such rates the whole transition equals the corrected one, so the test traces hold for both |
| MetricsStore.NewMemoryStore | prometheus/controller/store.go:22-26 | a new store records nothing for any id |
| MetricsStore.GetPodMetricsRecords | prometheus/controller/store.go:28-39 | never errs; returns exactly the recorded metrics, each once, in no promised order; nothing for an id never added |
| MetricsStore.InsertAll | prometheus/controller/store.go:46-48 | inserting a list into a set yields the set plus every element of the list |
| MetricsStore.AddPodMetricsRecords | prometheus/controller/store.go:41-53 | never errs; the id gets an entry holding its old metrics and the new ones; every other id is untouched |
| MetricsStore.DeletePodMetricsRecords | prometheus/controller/store.go:55-57 | never errs and leaves the store unchanged |
| MetricsStore.ResetPodMetricsRecords | prometheus/controller/store.go:59-61 | never errs and leaves the store unchanged |
| MetricsStore.AddDependsOnlyOnElements | prometheus/controller/store.go:46-48 | lists with the same elements, whatever the duplicates or order, give the same store |
| MetricsStore.AddTwiceIsAddConcatenation | prometheus/controller/store.go:41-53 | adding `a` then `b` equals adding `a + b` |
| MetricsStore.AddIdempotent | prometheus/controller/store.go:41-53 | adding the same list twice equals adding it once |
| MetricsStore.AddsForDifferentPodsCommute | prometheus/controller/store.go:41-48 | adds for different ids commute |
| MetricsStore.AddEmptyCreatesEmptyEntry | prometheus/controller/store.go:42-44 | adding an empty list for a new id creates an entry without metrics |
| Decorator.WithName | decorator/main.go:15-19 | sets the name and keeps address and age |
| Decorator.WithAddress | decorator/main.go:21-25 | sets the address and keeps name and age |
| Decorator.WithAge | decorator/main.go:27-31 | sets the age and keeps name and address |
| Decorator.ApplyConfig | decorator/main.go:33-37 | the loop runs the options first to last; with no options the configuration is unchanged |
| Decorator.AppliedConcat | decorator/main.go:33-37 | running `a` and then `b` equals running `a + b` |
| Decorator.LastNameWins | decorator/main.go:33-37 | a final `WithName` decides the name whatever ran before and keeps the other fields |
| Decorator.OverriddenOptionDrops | decorator/main.go:33-37 | an option whose effect the next option always overwrites can be dropped anywhere in the list |
| Decorator.SameFieldLastWins | decorator/main.go:15-37 | of two consecutive `WithName`, `WithAddress` or `WithAge` options, the second overrides the first anywhere in the list |
| Decorator.SwapAdjacent | decorator/main.go:33-37 | two options that commute on every configuration can be swapped anywhere in the list |
| Decorator.DistinctFieldsCommute | decorator/main.go:15-37 | options on different fields commute anywhere in the list |
| Decorator.Example | decorator/main.go:39-45 | `WithAge(25)`, `WithName("YaoZengzeng")` and `WithAddress("Hangzhou")` on the zero configuration give exactly those values |

## Left out

- `Allow()` (rate/rate.go:47-49) reads the wall clock. Only `AllowN` and `ReserveN` with an explicit instant are modelled.
- The limiter's mutex is not modelled. Each call is one atomic transition.
- `memoryStore` has no lock, and `prometheus/controller/controller.go` calls `AddPodMetricsRecords` from concurrent HTTP handlers. The model treats the calls as one after another. In Go, concurrent writes to the unsynchronized map can crash the process.
- The goroutine and wall-clock tests are not modelled: `TestSimultaneousRequests` and `TestLongRunningQPS` (rate/rate_test.go:113-178). `SimultaneousRequests` models the first as calls at one instant.
- `float64` rates are replaced by exact rationals. A float can round `k / rate * 1e9` to the other side of a whole number where the rational does not.
- Negative rates are left out. They are outside the limiter's domain. Go computes finite values for them: `tokensToDuration` is negative, so the bucket refills to its burst on every call. The model's positive `events` and `perNanos` cannot represent them.
- A zero rate is left out. It gives ±Inf or NaN durations, and Go's conversion of those to an integer is implementation-defined.
- 64-bit limits are left out: time, durations, counts and the burst are unbounded integers.
  - `time.Sub` saturates at `math.MaxInt64` nanoseconds, and `now - 0` in the model does not. This matters only when the cap `tokensToDuration(burst - tokens)` is itself above that.
  - Overflowing float-to-`Duration` conversions are not modelled.
- RateLimit.DurationToTokens returns 0 for `Inf` at every duration. In Go, `Inf` is `math.MaxFloat64`, so any non-zero duration overflows the conversion to `int` and the result depends on the implementation. `advance` never reaches that case: `tokensToDuration` of `Inf` is 0, which caps the elapsed time at 0.
- `advance` takes `n` but never reads it, so `RateLimit.Advance` has no `n`.
- `Reservation` is modelled with its only field, `ok`. There is no wait duration to report.
- The `Store` interface is modelled by the four functions of the memory store. `fmt.Printf` in `AddPodMetricsRecords` is output and is left out.
- `GetPodMetricsRecords` returns `nil` when there are no metrics. The model returns the empty sequence.
- `OptionFunc` is a function returning a new `Config`, not a mutation through a pointer.
- Nil pointers are not modelled, because the model's configurations and options are total values:
  - `ApplyConfig` with a nil `*Config` panics in the first `With*` option it runs, since each option writes through the pointer (decorator/main.go:15-31). With no options it returns normally.
  - A nil `OptionFunc` panics when the loop calls it (decorator/main.go:35).
- The rest of the repository is I/O glue over third-party clients and is not part of this model: `prometheus/controller/controller.go`, memberlist, sqlx, the alert client, Kubernetes, Kafka, gRPC, CoreDNS, Docker, the Prometheus demo, HTTP and context examples.

## Findings

| source | as written | input that shows it | evidently intended | confidence | as-written member | corrected member |
|---|---|---|---|---|---|---|
| rate/rate.go:98-104 | The elapsed time is capped at `tokensToDuration(burst - tokens)`, truncated to whole nanoseconds. Converting it back with `durationToTokens` truncates again. When the `burst - tokens` missing tokens do not take a whole number of nanoseconds, this loses at least one token (`CapLosesAToken`): exactly one at rates of at most one event per nanosecond (`CapLosesAtMostOne`), and possibly all of them at faster rates (`FastRateLosesEverything`). Below the cap the refill is exact (`AdvanceBeforeCap`), so only the cap loses tokens. In particular, at 3/s a bucket one token short of its burst never refills. | `NewLimiter(3, 1)`: no one-event call `AllowN(t, 1)` is ever admitted, at any `t` and in any sequence of such calls | An idle bucket refills to its burst: `tokens = min(tokens + earned, burst)` | high; not executed | RateLimitRefill.ThirdSecondLimiterNeverAdmits | RateLimitRefill.RefillsToBurst |

`RateLimitRefill.ExactRatesReserveAgree` proves that the corrected transition equals the code's whenever a token takes a whole number of nanoseconds. The 10/s and 1/s rates of the test traces qualify, so those traces hold for both.

=== FILE: decorator.dfy ===
/**
 Functional options over a configuration record.

 Go's `OptionFunc` mutates a `*Config`; here an option is a function from the
 configuration it is given to the one it leaves, and `ApplyConfig` returns the
 configuration left after every option has run, first to last.
 */
module Decorator {

  datatype Config = Config(name: string, address: string, age: int)

  type OptionFunc = Config -> Config

  function WithName(name: string): (opt: OptionFunc)
    ensures forall c :: opt(c).name == name && opt(c).address == c.address && opt(c).age == c.age
  {
    (c: Config) => c.(name := name)
  }

  function WithAddress(address: string): (opt: OptionFunc)
    ensures forall c :: opt(c).address == address && opt(c).name == c.name && opt(c).age == c.age
  {
    (c: Config) => c.(address := address)
  }

  function WithAge(age: int): (opt: OptionFunc)
    ensures forall c :: opt(c).age == age && opt(c).name == c.name && opt(c).address == c.address
  {
    (c: Config) => c.(age := age)
  }

  /** The configuration `opts` leave when run on `c`, the first option first. */
  function Applied(c: Config, opts: seq<OptionFunc>): Config
    decreases |opts|
  {
    if opts == [] then c else Applied(opts[0](c), opts[1..])
  }

  /** Go's `ApplyConfig`: run every option in turn on one configuration. */
  method ApplyConfig(c: Config, opts: seq<OptionFunc>) returns (r: Config)
    ensures r == Applied(c, opts)
    ensures opts == [] ==> r == c
  {
    r := c;
    var i := 0;
    while i < |opts|
      invariant 0 <= i <= |opts|
      invariant Applied(r, opts[i..]) == Applied(c, opts)
    {
      assert opts[i..][1..] == opts[i + 1..];
      r := opts[i](r);
      i := i + 1;
    }
    assert opts[i..] == [];
  }

  /** Running `a` then `b` is running their concatenation. */
  lemma {:induction false} AppliedConcat(c: Config, a: seq<OptionFunc>, b: seq<OptionFunc>)
    ensures Applied(c, a + b) == Applied(Applied(c, a), b)
    decreases |a|
  {
    if a != [] {
      assert (a + b)[0] == a[0] && (a + b)[1..] == a[1..] + b;
      AppliedConcat(a[0](c), a[1..], b);
      assert Applied(c, a) == Applied(a[0](c), a[1..]);
    } else {
      assert a + b == b;
    }
  }

  /** The last option wins: whatever ran before, a final `WithName` decides
      the name and keeps the other fields. */
  lemma LastNameWins(c: Config, opts: seq<OptionFunc>, name: string)
    ensures Applied(c, opts + [WithName(name)]) == Applied(c, opts).(name := name)
  {
    AppliedConcat(c, opts, [WithName(name)]);
  }

  /** An option whose effect the next option overwrites on every configuration
      may be dropped from any list. */
  lemma OverriddenOptionDrops(c: Config, a: seq<OptionFunc>, b: seq<OptionFunc>, f: OptionFunc, g: OptionFunc)
    requires forall x :: g(f(x)) == g(x)
    ensures Applied(c, a + [f, g] + b) == Applied(c, a + [g] + b)
  {
    AppliedConcat(c, a + [f, g], b);
    AppliedConcat(c, a, [f, g]);
    AppliedConcat(c, a + [g], b);
    AppliedConcat(c, a, [g]);
  }

  /** Two consecutive options on one field: the second overrides the first,
      for each of the three fields. */
  lemma SameFieldLastWins(c: Config, a: seq<OptionFunc>, b: seq<OptionFunc>, n1: string, n2: string, a1: string, a2: string, x: int, y: int)
    ensures Applied(c, a + [WithName(n1), WithName(n2)] + b) == Applied(c, a + [WithName(n2)] + b)
    ensures Applied(c, a + [WithAddress(a1), WithAddress(a2)] + b) == Applied(c, a + [WithAddress(a2)] + b)
    ensures Applied(c, a + [WithAge(x), WithAge(y)] + b) == Applied(c, a + [WithAge(y)] + b)
  {
    OverriddenOptionDrops(c, a, b, WithName(n1), WithName(n2));
    OverriddenOptionDrops(c, a, b, WithAddress(a1), WithAddress(a2));
    OverriddenOptionDrops(c, a, b, WithAge(x), WithAge(y));
  }

  /** Options on different fields commute wherever they stand in the list. */
  lemma DistinctFieldsCommute(c: Config, a: seq<OptionFunc>, b: seq<OptionFunc>, name: string, address: string, age: int)
    ensures Applied(c, a + [WithName(name), WithAge(age)] + b) == Applied(c, a + [WithAge(age), WithName(name)] + b)
    ensures Applied(c, a + [WithName(name), WithAddress(address)] + b) == Applied(c, a + [WithAddress(address), WithName(name)] + b)
    ensures Applied(c, a + [WithAddress(address), WithAge(age)] + b) == Applied(c, a + [WithAge(age), WithAddress(address)] + b)
  {
    SwapAdjacent(c, a, b, WithName(name), WithAge(age));
    SwapAdjacent(c, a, b, WithName(name), WithAddress(address));
    SwapAdjacent(c, a, b, WithAddress(address), WithAge(age));
  }

  /** Two options that commute on every configuration may be swapped inside
      any list. */
  lemma SwapAdjacent(c: Config, a: seq<OptionFunc>, b: seq<OptionFunc>, f: OptionFunc, g: OptionFunc)
    requires forall x :: g(f(x)) == f(g(x))
    ensures Applied(c, a + [f, g] + b) == Applied(c, a + [g, f] + b)
  {
    AppliedConcat(c, a + [f, g], b);
    AppliedConcat(c, a, [f, g]);
    AppliedConcat(c, a + [g, f], b);
    AppliedConcat(c, a, [g, f]);
  }

  /** The program's own use: age, name and address applied to the zero
      configuration. */
  method Example() returns (c: Config)
    ensures c == Config("YaoZengzeng", "Hangzhou", 25)
  {
    c := ApplyConfig(Config("", "", 0), [WithAge(25), WithName("YaoZengzeng"), WithAddress("Hangzhou")]);
  }
}

=== FILE: rate.dfy ===
/**
 A token-bucket rate limiter as a pure state machine.

 Instants and durations are whole nanoseconds (`int`); the zero instant is the
 value a fresh limiter holds as its last update. A rate is either the unlimited
 sentinel `Inf` or the exact rational `events` per `perNanos` nanoseconds, so
 that `Every(2500ms)` (0.4 events per second) is representable without floats.
 Every conversion from an exact quotient to a whole number truncates toward
 zero, as Go's float-to-integer conversion does.
 */
module RateLimit {

  /** One second in nanoseconds. */
  const Second: Positive := 1_000_000_000

  type Positive = x: int | 0 < x witness 1

  /** Events per time: `Limited(e, p)` admits `e` events every `p` nanoseconds. */
  datatype Limit = Inf | Limited(events: Positive, perNanos: Positive)

  /** A rate of `eventsPerSecond` events per second (Go's `Limit(k)`). */
  function Hz(eventsPerSecond: Positive): Limit {
    Limited(eventsPerSecond, Second)
  }

  /** `l` is exactly `num / den` events per second. */
  predicate IsRate(l: Limit, num: int, den: Positive) {
    l.Limited? && l.events * Second * den == num * l.perNanos
  }

  function Min(a: int, b: int): int {
    if a <= b then a else b
  }

  /** The exact quotient `a / b` truncated toward zero. */
  function TruncDiv(a: int, b: Positive): (q: int)
    ensures 0 <= a ==> 0 <= q && q * b <= a < q * b + b
    ensures a < 0 ==> q <= 0 && q * b - b < a <= q * b
  {
    if 0 <= a then a / b else -((-a) / b)
  }

  lemma TruncDivMonotone(a1: int, a2: int, b: Positive)
    requires a1 <= a2
    ensures TruncDiv(a1, b) <= TruncDiv(a2, b)
  {
    var q1, q2 := TruncDiv(a1, b), TruncDiv(a2, b);
    if q2 < q1 {
      MulMonotone(q2 + 1, q1, b);
    }
  }

  lemma MulMonotone(x: int, y: int, b: Positive)
    requires x <= y
    ensures x * b <= y * b
  {
  }

  /** How long `tokens` tokens take to accumulate at rate `l`. */
  function TokensToDuration(l: Limit, tokens: int): (d: int)
    ensures l.Inf? ==> d == 0
    ensures l.Limited? && 0 <= tokens ==>
      0 <= d && d * l.events <= tokens * l.perNanos < d * l.events + l.events
    ensures l.Limited? && tokens < 0 ==>
      d <= 0 && d * l.events - l.events < tokens * l.perNanos <= d * l.events
  {
    match l
    case Inf => 0
    case Limited(e, p) => TruncDiv(tokens * p, e)
  }

  /** How many whole tokens accumulate over `d` nanoseconds at rate `l`. */
  function DurationToTokens(l: Limit, d: int): (tokens: int)
    ensures l.Inf? ==> tokens == 0
    ensures l.Limited? && 0 <= d ==>
      0 <= tokens && tokens * l.perNanos <= d * l.events < tokens * l.perNanos + l.perNanos
    ensures l.Limited? && d < 0 ==>
      tokens <= 0 && tokens * l.perNanos - l.perNanos < d * l.events <= tokens * l.perNanos
  {
    match l
    case Inf => 0
    case Limited(e, p) => TruncDiv(d * e, p)
  }

  lemma DurationToTokensMonotone(l: Limit, d1: int, d2: int)
    requires d1 <= d2
    ensures DurationToTokens(l, d1) <= DurationToTokens(l, d2)
  {
    if l.Limited? {
      MulMonotone(d1, d2, l.events);
      TruncDivMonotone(d1 * l.events, d2 * l.events, l.perNanos);
    }
  }

  /** Converting a token count to a duration and back never overshoots the
      count: the result lies between zero and `k`. */
  lemma {:induction false} TokensRoundTrip(l: Limit, k: int)
    ensures 0 <= k ==> 0 <= DurationToTokens(l, TokensToDuration(l, k)) <= k
    ensures k < 0 ==> k <= DurationToTokens(l, TokensToDuration(l, k)) <= 0
  {
    if l.Limited? {
      var e, p := l.events, l.perNanos;
      var d := TokensToDuration(l, k);
      var t := DurationToTokens(l, d);
      if 0 <= k {
        if k < t {
          MulMonotone(k + 1, t, p);
        }
      } else {
        if t < k {
          MulMonotone(t + 1, k, p);
        }
      }
    }
  }

  /** Go's `Every`: the rate of one event per `interval`, unlimited when the
      interval is not positive. */
  function Every(interval: int): (l: Limit)
    ensures l.Inf? <==> interval <= 0
    ensures 0 < interval ==> IsRate(l, Second, interval)
  {
    if interval <= 0 then Inf else Limited(1, interval)
  }

  /** The limiter state that Go guards with a mutex. */
  datatype Limiter = Limiter(limit: Limit, tokens: int, burst: int, last: int)

  function NewLimiter(r: Limit, b: int): (lim: Limiter)
    ensures lim.limit == r && lim.burst == b
    ensures lim.tokens == 0 && lim.last == 0
  {
    Limiter(r, 0, b, 0)
  }

  /** The longest wait a caller tolerates; `InfDuration` is the largest
      duration there is, which every wait respects. */
  datatype MaxFutureTime = AtMost(d: int) | InfDuration

  predicate Permits(m: MaxFutureTime, wait: int) {
    match m
    case InfDuration => true
    case AtMost(d) => wait <= d
  }

  datatype Reservation = Reservation(ok: bool)

  /** The proposal computed by `advance`: the call's instant, the clamped last
      update and the balance the bucket would hold at `now`. */
  datatype Advanced = Advanced(now: int, last: int, tokens: int)

  function Advance(lim: Limiter, now: int): (a: Advanced)
    ensures a.now == now
    ensures a.last == Min(lim.last, now)
    ensures lim.limit.Inf? ==> a.tokens == lim.tokens
    ensures lim.tokens <= lim.burst ==> lim.tokens <= a.tokens <= lim.burst
    ensures lim.burst < lim.tokens ==> lim.burst <= a.tokens <= lim.tokens
    ensures lim.tokens <= lim.burst && now <= lim.last ==> a.tokens == lim.tokens
  {
    var last := if now < lim.last then now else lim.last;
    var maxElapse := TokensToDuration(lim.limit, lim.burst - lim.tokens);
    var elapse := if now - last > maxElapse then maxElapse else now - last;
    var delta := DurationToTokens(lim.limit, elapse);
    TokensRoundTrip(lim.limit, lim.burst - lim.tokens);
    DurationToTokensMonotone(lim.limit, elapse, maxElapse);
    DurationToTokensMonotone(lim.limit, Min(0, elapse), elapse);
    Advanced(now, last, lim.tokens + delta)
  }

  /** How long a caller must wait until a balance of `balance` tokens is no
      longer negative. */
  function WaitFor(l: Limit, balance: int): (wait: int)
    ensures 0 <= wait
    ensures 0 <= balance || l.Inf? ==> wait == 0
    ensures l.Limited? && balance < 0 ==>
      wait * l.events <= -balance * l.perNanos < wait * l.events + l.events
  {
    if balance < 0 then TokensToDuration(l, -balance) else 0
  }

  /** The wait for a balance fits within `d` nanoseconds exactly when the
      deficit refills before `d + 1`. */
  lemma WaitWithin(l: Limit, balance: int, d: int)
    ensures l.Limited? && 0 <= d ==>
      (WaitFor(l, balance) <= d <==> -balance * l.perNanos < (d + 1) * l.events)
  {
    if l.Limited? && 0 <= d {
      var e, p := l.events, l.perNanos;
      var wait := WaitFor(l, balance);
      if 0 <= balance {
        MulMonotone(-balance, 0, p);
        MulMonotone(1, d + 1, e);
      } else if wait <= d {
        MulMonotone(wait + 1, d + 1, e);
      } else {
        MulMonotone(d + 1, wait, e);
      }
    }
  }

  datatype Step = Step(next: Limiter, reservation: Reservation)

  /** The decision of `reserveN`, given the proposal of `advance`: commit the
      proposal less `n` when it is admissible, otherwise keep the balance and
      only take over the clamped last update. */
  function Decide(lim: Limiter, a: Advanced, n: int, maxFutureTime: MaxFutureTime): (s: Step)
    ensures s.next.limit == lim.limit && s.next.burst == lim.burst
    ensures lim.burst < n ==> !s.reservation.ok
    ensures s.reservation.ok ==> s.next.last == a.now && s.next.tokens == a.tokens - n
    ensures !s.reservation.ok ==> s.next.tokens == lim.tokens && s.next.last == a.last
    ensures maxFutureTime.InfDuration? ==> (s.reservation.ok <==> n <= lim.burst)
    ensures maxFutureTime.AtMost? && maxFutureTime.d < 0 ==> !s.reservation.ok
    ensures lim.limit.Inf? && maxFutureTime.AtMost? && 0 <= maxFutureTime.d ==>
      (s.reservation.ok <==> n <= lim.burst)
    ensures lim.limit.Limited? && maxFutureTime.AtMost? && 0 <= maxFutureTime.d ==>
      (s.reservation.ok <==>
        n <= lim.burst && (n - a.tokens) * lim.limit.perNanos < (maxFutureTime.d + 1) * lim.limit.events)
  {
    var tokens := a.tokens - n;
    var wait := WaitFor(lim.limit, tokens);
    WaitWithin(lim.limit, tokens, if maxFutureTime.AtMost? then maxFutureTime.d else 0);
    var ok := n <= lim.burst && Permits(maxFutureTime, wait);
    if ok then
      Step(lim.(last := a.now, tokens := tokens), Reservation(true))
    else
      Step(lim.(last := a.last), Reservation(false))
  }

  /** Go's `reserveN`: one atomic transition of the limiter. */
  function Reserve(lim: Limiter, now: int, n: int, maxFutureTime: MaxFutureTime): (s: Step)
    ensures s.next.limit == lim.limit && s.next.burst == lim.burst
    ensures lim.burst < n ==> !s.reservation.ok
    ensures s.reservation.ok ==> s.next.last == now && s.next.tokens == Advance(lim, now).tokens - n
    ensures !s.reservation.ok ==> s.next == lim.(last := Min(lim.last, now))
    ensures maxFutureTime.InfDuration? ==> (s.reservation.ok <==> n <= lim.burst)
    ensures maxFutureTime.AtMost? && maxFutureTime.d < 0 ==> !s.reservation.ok
  {
    Decide(lim, Advance(lim, now), n, maxFutureTime)
  }

  /** When `reserveN` accepts a request within a finite tolerated wait: the
      deficit left after the request, `n` less the advanced balance, must
      refill within `d` whole nanoseconds, that is, before `d + 1`. With
      `Inf` nothing is ever waited for. */
  lemma ReserveAcceptance(lim: Limiter, now: int, n: int, d: int)
    ensures lim.limit.Limited? && 0 <= d ==>
      (Reserve(lim, now, n, AtMost(d)).reservation.ok <==>
        n <= lim.burst && (n - Advance(lim, now).tokens) * lim.limit.perNanos < (d + 1) * lim.limit.events)
    ensures lim.limit.Inf? ==>
      (Reserve(lim, now, n, AtMost(d)).reservation.ok <==> n <= lim.burst && 0 <= d)
  {
  }

  datatype Allowed = Allowed(next: Limiter, ok: bool)

  /** Go's `AllowN`: admit `n` events at `now` without waiting. An admission
      never leaves a deficit that would take a whole nanosecond to refill. */
  function AllowN(lim: Limiter, now: int, n: int): (r: Allowed)
    ensures lim.burst < n ==> !r.ok
    ensures r.ok ==> r.next == lim.(last := now, tokens := Advance(lim, now).tokens - n)
    ensures !r.ok ==> r.next == lim.(last := Min(lim.last, now))
    ensures r.ok && lim.limit.Limited? && r.next.tokens < 0 ==>
      -r.next.tokens * lim.limit.perNanos < lim.limit.events
    ensures lim.limit.Limited? ==>
      (r.ok <==> n <= lim.burst && (n - Advance(lim, now).tokens) * lim.limit.perNanos < lim.limit.events)
    ensures lim.limit.Inf? ==> (r.ok <==> n <= lim.burst)
  {
    var s := Reserve(lim, now, n, AtMost(0));
    ReserveAcceptance(lim, now, n, 0);
    Allowed(s.next, s.reservation.ok)
  }

  /** Go's `ReserveN`: reserve `n` events however long the wait. */
  function ReserveN(lim: Limiter, now: int, n: int): (s: Step)
    ensures s.reservation.ok <==> n <= lim.burst
    ensures s.reservation.ok ==> s.next == lim.(last := now, tokens := Advance(lim, now).tokens - n)
    ensures !s.reservation.ok ==> s.next == lim.(last := Min(lim.last, now))
  {
    Reserve(lim, now, n, InfDuration)
  }
}

=== FILE: rate_properties.dfy ===
/**
 Properties of the token-bucket limiter that relate several calls or hold for
 every input: how `AllowN` and `ReserveN` relate, what a rejected call leaves
 behind, and which bounds on the balance the code keeps and which it does not.
 */
module RateLimitProperties {
  import opened RateLimit

  /** The balance never leaves the bucket's capacity. */
  predicate WithinCapacity(lim: Limiter) {
    0 <= lim.tokens <= lim.burst
  }

  /** A rate that needs at least a nanosecond per token. */
  predicate AtMostOnePerNano(l: Limit) {
    l.Limited? && l.events <= l.perNanos
  }

  lemma EveryExamples()
    ensures Every(0) == Inf && Every(-1) == Inf
    ensures IsRate(Every(1), Second, 1)
    ensures IsRate(Every(100), 10_000_000, 1)
    ensures IsRate(Every(Second), 1, 1)
    ensures IsRate(Every(2_500_000_000), 2, 5)
    ensures IsRate(Every(0x7fff_ffff_ffff_ffff), Second, 0x7fff_ffff_ffff_ffff)
  {
  }

  /** From the same state, an admission by `AllowN` is also an admission by
      `ReserveN`, and both commit the same state. */
  lemma AllowImpliesReserve(lim: Limiter, now: int, n: int)
    ensures AllowN(lim, now, n).ok ==>
      ReserveN(lim, now, n) == Step(AllowN(lim, now, n).next, Reservation(true))
  {
  }

  /** At a rate of at most one token per nanosecond, `AllowN` admits exactly
      when `n` fits the burst and the advanced balance covers `n`. */
  lemma AllowIffBalanceCovers(lim: Limiter, now: int, n: int)
    requires AtMostOnePerNano(lim.limit)
    ensures AllowN(lim, now, n).ok <==> n <= lim.burst && n <= Advance(lim, now).tokens
  {
    var balance := Advance(lim, now).tokens - n;
    if balance < 0 {
      var wait := WaitFor(lim.limit, balance);
      MulMonotone(1, -balance, lim.limit.perNanos);
      assert 0 < wait;
    }
  }

  /** With the unlimited rate no tokens are ever added and the wait is always
      zero, so `AllowN` admits exactly the requests that fit the burst. */
  lemma InfAllowsUpToBurst(lim: Limiter, now: int, n: int)
    requires lim.limit.Inf?
    ensures AllowN(lim, now, n).ok <==> n <= lim.burst
    ensures AllowN(lim, now, n).ok ==> AllowN(lim, now, n).next.tokens == lim.tokens - n
  {
  }

  /** With a rate of at most one token per nanosecond, `AllowN` of a
      non-negative count keeps the balance between zero and the burst. */
  lemma AllowPreservesCapacity(lim: Limiter, now: int, n: int)
    requires WithinCapacity(lim) && AtMostOnePerNano(lim.limit) && 0 <= n
    ensures WithinCapacity(AllowN(lim, now, n).next)
  {
    AllowIffBalanceCovers(lim, now, n);
  }

  /** No call with a non-negative count lifts the balance above the burst. */
  lemma BurstBoundPreserved(lim: Limiter, now: int, n: int, maxFutureTime: MaxFutureTime)
    requires lim.tokens <= lim.burst && 0 <= n
    ensures Reserve(lim, now, n, maxFutureTime).next.tokens <= lim.burst
  {
  }

  /** A rejected call leaves no trace at its own instant: every following call
      at the same instant behaves as if it had not happened, and when the clock
      did not go backwards the state is exactly the old one. */
  lemma RejectionLeavesNoTrace(lim: Limiter, now: int, n: int, m: MaxFutureTime, n2: int, m2: MaxFutureTime)
    ensures !Reserve(lim, now, n, m).reservation.ok ==>
      Reserve(Reserve(lim, now, n, m).next, now, n2, m2) == Reserve(lim, now, n2, m2)
    ensures !Reserve(lim, now, n, m).reservation.ok && lim.last <= now ==>
      Reserve(lim, now, n, m).next == lim
  {
    var next := lim.(last := Min(lim.last, now));
    assert Advance(next, now) == Advance(lim, now);
  }

  /** An earlier last update never yields a smaller proposed balance. */
  lemma AdvanceAntitoneInLast(lim: Limiter, earlier: int, t: int)
    requires earlier <= lim.last
    ensures Advance(lim, t).tokens <= Advance(lim.(last := earlier), t).tokens
  {
    var cap := TokensToDuration(lim.limit, lim.burst - lim.tokens);
    var e1 := Min(t - Min(lim.last, t), cap);
    var e2 := Min(t - Min(earlier, t), cap);
    DurationToTokensMonotone(lim.limit, e1, e2);
  }

  /** A later instant never yields a smaller proposed balance. */
  lemma AdvanceMonotoneInNow(lim: Limiter, t1: int, t2: int)
    requires t1 <= t2
    ensures Advance(lim, t1).tokens <= Advance(lim, t2).tokens
  {
    var cap := TokensToDuration(lim.limit, lim.burst - lim.tokens);
    var e1 := Min(t1 - Min(lim.last, t1), cap);
    var e2 := Min(t2 - Min(lim.last, t2), cap);
    DurationToTokensMonotone(lim.limit, e1, e2);
  }

  /** A rejected call never puts a later caller at a disadvantage: at every
      instant the balance proposed afterwards is at least the one proposed
      before the rejection. */
  lemma RejectionNeverDisadvantages(lim: Limiter, now: int, n: int, m: MaxFutureTime, t: int)
    ensures !Reserve(lim, now, n, m).reservation.ok ==>
      Advance(lim, t).tokens <= Advance(Reserve(lim, now, n, m).next, t).tokens
  {
    AdvanceAntitoneInLast(lim, Min(lim.last, now), t);
  }

  /** Two admissions at one instant whose counts the proposed balance covers
      behave exactly as one admission of their sum. */
  lemma SplitEqualsCombined(lim: Limiter, now: int, a: int, b: int)
    requires lim.tokens <= lim.burst && 0 <= a && 0 <= b
    requires a + b <= Advance(lim, now).tokens
    ensures AllowN(lim, now, a).ok && AllowN(lim, now, a + b).ok
    ensures AllowN(AllowN(lim, now, a).next, now, b) == AllowN(lim, now, a + b)
  {
    var first := AllowN(lim, now, a).next;
    assert Advance(first, now).tokens == Advance(lim, now).tokens - a;
  }

  /** When the clock goes backwards, every call moves the last update back to
      the presented instant, whether it admits or not. */
  lemma LastFollowsBackwardClock(lim: Limiter, now: int, n: int, m: MaxFutureTime)
    requires now < lim.last
    ensures Reserve(lim, now, n, m).next.last == now
  {
  }

  /** From a balance within capacity, a request for zero or fewer events is
      admitted and still commits the instant and the advanced balance less
      `n`. */
  lemma NonPositiveRequestCommits(lim: Limiter, now: int, n: int)
    requires WithinCapacity(lim) && n <= 0
    ensures AllowN(lim, now, n) == Allowed(lim.(last := now, tokens := Advance(lim, now).tokens - n), true)
  {
  }

  /** A negative count refunds tokens and can lift the balance above the
      burst. */
  lemma NegativeRequestOverfills()
    ensures AllowN(Limiter(Hz(10), 1, 1, 0), 0, -1) == Allowed(Limiter(Hz(10), 2, 1, 0), true)
  {
  }

  /** `ReserveN` admits a request the balance does not cover and leaves the
      balance negative. */
  lemma ReserveDrivesTokensNegative(t: int)
    ensures ReserveN(Limiter(Hz(10), 0, 1, t), t, 1) == Step(Limiter(Hz(10), -1, 1, t), Reservation(true))
  {
  }

  /** With the unlimited rate every request within the burst is admitted, so
      the balance keeps falling. */
  lemma InfDrivesTokensNegative(t: int)
    ensures AllowN(NewLimiter(Inf, 3), t, 3) == Allowed(Limiter(Inf, -3, 3, t), true)
    ensures AllowN(Limiter(Inf, -3, 3, t), t, 3) == Allowed(Limiter(Inf, -6, 3, t), true)
  {
  }

  /** Above one token per nanosecond a one-token deficit refills in less than a
      nanosecond, so `AllowN` admits it and the balance goes negative. */
  lemma FastRateOverdraws(t: int)
    ensures AllowN(Limiter(Hz(2 * Second), 0, 1, t), t, 1) == Allowed(Limiter(Hz(2 * Second), -1, 1, t), true)
  {
  }
}

=== FILE: rate_refill.dfy ===
/**
 Refilling the bucket after idle time.

 `advance` caps the elapsed time at `tokensToDuration(burst - tokens)` and
 converts the capped time back with `durationToTokens`; both conversions
 truncate. When the `burst - tokens` missing tokens do not take a whole number
 of nanoseconds (three events per second: 333333333.3 ns per token) the round
 trip loses a token. In particular a bucket one token short of its burst never
 refills, and a limiter of three events per second and burst one never admits
 a one-event call. An empty bucket of burst three does refill, because three
 tokens take exactly one second.

 `AdvanceIntended` is the refill a token bucket promises: the tokens earned
 over the whole elapsed time, capped at the burst. It agrees with `Advance`
 whenever a token takes a whole number of nanoseconds, as it does at the ten
 and one events per second of the limiter's tests.
 */
module RateLimitRefill {
  import opened RateLimit
  import opened RateLimitTraces

  /** The proposal of `advance` as the bucket is meant to refill. */
  function AdvanceIntended(lim: Limiter, now: int): (a: Advanced)
    ensures a.now == now && a.last == Min(lim.last, now)
    ensures lim.limit.Inf? ==> a.tokens == lim.tokens
    ensures lim.limit.Limited? ==> a.tokens <= lim.burst
    ensures lim.tokens <= lim.burst ==> lim.tokens <= a.tokens
  {
    var last := Min(lim.last, now);
    if lim.limit.Inf? then Advanced(now, last, lim.tokens)
    else Advanced(now, last, Min(lim.tokens + DurationToTokens(lim.limit, now - last), lim.burst))
  }

  /** `reserveN` on top of the intended refill. */
  function ReserveIntended(lim: Limiter, now: int, n: int, maxFutureTime: MaxFutureTime): (s: Step)
    ensures s.next.limit == lim.limit && s.next.burst == lim.burst
    ensures lim.burst < n ==> !s.reservation.ok
    ensures s.reservation.ok ==> s.next.last == now && s.next.tokens == AdvanceIntended(lim, now).tokens - n
    ensures !s.reservation.ok ==> s.next == lim.(last := Min(lim.last, now))
  {
    Decide(lim, AdvanceIntended(lim, now), n, maxFutureTime)
  }

  /** Once enough time has passed to earn the missing tokens, the intended
      refill fills the bucket to its burst. */
  lemma RefillsToBurst(lim: Limiter, now: int)
    requires lim.limit.Limited? && lim.tokens <= lim.burst && lim.last <= now
    requires (lim.burst - lim.tokens) * lim.limit.perNanos <= (now - lim.last) * lim.limit.events
    ensures AdvanceIntended(lim, now).tokens == lim.burst
  {
    var k := lim.burst - lim.tokens;
    var earned := DurationToTokens(lim.limit, now - lim.last);
    if earned < k {
      MulMonotone(earned + 1, k, lim.limit.perNanos);
    }
  }

  /** With the intended refill a limiter whose bucket has had time to fill
      admits a whole burst at once. */
  lemma IntendedAdmitsBurstAfterRefill(lim: Limiter, now: int)
    requires lim.limit.Limited? && lim.tokens <= lim.burst && lim.last <= now
    requires (lim.burst - lim.tokens) * lim.limit.perNanos <= (now - lim.last) * lim.limit.events
    ensures ReserveIntended(lim, now, lim.burst, AtMost(0)).reservation.ok
    ensures ReserveIntended(lim, now, lim.burst, AtMost(0)).next.tokens == 0
  {
    RefillsToBurst(lim, now);
  }

  /** As written: at three events per second a bucket one token short of its
      burst stays one token short whatever the instant. */
  lemma OneShortNeverRefills(lim: Limiter, now: int)
    requires lim.limit == Hz(3) && lim.tokens == lim.burst - 1
    ensures Advance(lim, now).tokens == lim.tokens
  {
    var maxElapse := TokensToDuration(lim.limit, 1);
    assert maxElapse == 333_333_333;
    var last := Min(lim.last, now);
    var elapse := Min(now - last, maxElapse);
    DurationToTokensMonotone(lim.limit, elapse, maxElapse);
    assert DurationToTokens(lim.limit, maxElapse) == 0;
  }

  /** As written, by contrast: an empty bucket of burst three at three events
      per second is full again two seconds after its last update, since three
      tokens take a whole second. */
  lemma EmptyBurstThreeRefills()
    ensures Advance(Limiter(Hz(3), 0, 3, 0), 2 * Second).tokens == 3
  {
  }

  /** As written: at three events per second and burst one, an empty bucket
      stays empty whatever the instant, and a single event is rejected. */
  lemma ThirdSecondTokenIsLost(lim: Limiter, now: int)
    requires lim.limit == Hz(3) && lim.burst == 1 && lim.tokens == 0
    ensures Advance(lim, now).tokens == 0
    ensures AllowN(lim, now, 1) == Allowed(lim.(last := Min(lim.last, now)), false)
  {
    OneShortNeverRefills(lim, now);
  }

  /** As written: `NewLimiter(3, 1)` never admits a single event, whatever the
      instants of the calls. */
  lemma {:induction false} ThirdSecondLimiterNeverAdmits(lim: Limiter, calls: seq<Call>)
    requires lim.limit == Hz(3) && lim.burst == 1 && lim.tokens == 0
    requires forall i :: 0 <= i < |calls| ==> calls[i].n == 1
    ensures Admitted(Run(lim, calls)) == 0
    decreases |calls|
  {
    if calls != [] {
      ThirdSecondTokenIsLost(lim, calls[0].t);
      var r := AllowN(lim, calls[0].t, 1);
      ThirdSecondLimiterNeverAdmits(r.next, calls[1..]);
    }
  }

  /** Corrected: the same limiter admits its single event once a third of a
      second has passed since its last update. */
  lemma ThirdSecondLimiterAdmitsWhenIntended(now: int)
    requires 333_333_334 <= now
    ensures ReserveIntended(NewLimiter(Hz(3), 1), now, 1, AtMost(0)) == Step(Limiter(Hz(3), 0, 1, now), Reservation(true))
  {
    IntendedAdmitsBurstAfterRefill(NewLimiter(Hz(3), 1), now);
  }

  /** As written, below the cap the code refills exactly as intended: every
      token `advance` loses is lost to the truncated cap. */
  lemma AdvanceBeforeCap(lim: Limiter, now: int)
    requires lim.limit.Limited? && lim.tokens <= lim.burst
    requires now - Min(lim.last, now) <= TokensToDuration(lim.limit, lim.burst - lim.tokens)
    ensures Advance(lim, now) == AdvanceIntended(lim, now)
  {
    var cap := TokensToDuration(lim.limit, lim.burst - lim.tokens);
    DurationToTokensMonotone(lim.limit, now - Min(lim.last, now), cap);
    TokensRoundTrip(lim.limit, lim.burst - lim.tokens);
  }

  /** As written: at three events per second an empty bucket of burst ten
      earns three tokens in its first second, below the cap. */
  lemma ThirdSecondRefillBelowCap()
    ensures Advance(Limiter(Hz(3), 0, 10, 0), Second).tokens == 3
  {
  }

  /** As written: when `k` missing tokens do not take a whole number of
      nanoseconds, the capped elapsed time earns back fewer than `k`. */
  lemma CapLosesAToken(l: Limit, k: int)
    requires l.Limited? && 0 <= k
    requires TokensToDuration(l, k) * l.events != k * l.perNanos
    ensures DurationToTokens(l, TokensToDuration(l, k)) < k
  {
    var t := DurationToTokens(l, TokensToDuration(l, k));
    if k <= t {
      MulMonotone(k, t, l.perNanos);
    }
  }

  /** As written: at a rate of at most one event per nanosecond the cap loses
      at most one token. */
  lemma CapLosesAtMostOne(l: Limit, k: int)
    requires l.Limited? && l.events <= l.perNanos && 0 <= k
    ensures k - 1 <= DurationToTokens(l, TokensToDuration(l, k))
  {
    var p := l.perNanos;
    var t := DurationToTokens(l, TokensToDuration(l, k));
    assert (k - 1) * p == k * p - p;
    assert (t + 1) * p == t * p + p;
    if t < k - 1 {
      MulMonotone(t + 1, k - 1, p);
    }
  }

  /** As written: at ten events per nanosecond nine missing tokens take less
      than a nanosecond, so the cap is zero and an empty bucket of burst nine
      never refills. */
  lemma FastRateLosesEverything(now: int)
    ensures Advance(Limiter(Limited(10, 1), 0, 9, 0), now).tokens == 0
  {
  }

  /** A rate at which every token takes a whole number of nanoseconds. */
  predicate WholeNanosPerToken(l: Limit) {
    l.Limited? && l.perNanos % l.events == 0
  }

  /** Dividing a multiple of `b` by `b` is exact. */
  lemma TruncDivExact(x: int, b: Positive)
    ensures TruncDiv(x * b, b) == x
  {
    var q := TruncDiv(x * b, b);
    if 0 <= x {
      MulMonotone(0, x, b);
    } else {
      MulMonotone(x, 0, b);
    }
    if q < x {
      MulMonotone(q + 1, x, b);
    } else if x < q {
      MulMonotone(x + 1, q, b);
    }
  }

  lemma ExactTokensToDuration(l: Limit, k: int)
    requires WholeNanosPerToken(l)
    ensures TokensToDuration(l, k) == k * (l.perNanos / l.events)
  {
    var e, p, q := l.events, l.perNanos, l.perNanos / l.events;
    assert p == q * e;
    assert k * p == (k * q) * e by { assert k * (q * e) == (k * q) * e; }
    TruncDivExact(k * q, e);
  }

  lemma ExactDurationToTokens(l: Limit, k: int)
    requires WholeNanosPerToken(l)
    ensures DurationToTokens(l, k * (l.perNanos / l.events)) == k
  {
    var e, p, q := l.events, l.perNanos, l.perNanos / l.events;
    assert p == q * e;
    assert (k * q) * e == k * p by { assert k * (q * e) == (k * q) * e; }
    TruncDivExact(k, p);
  }

  /** When every token takes a whole number of nanoseconds the code's refill
      is the intended one; in particular every trace at ten or one events per
      second is the same under both. */
  lemma ExactRatesAgree(lim: Limiter, now: int)
    requires lim.limit.Inf? || WholeNanosPerToken(lim.limit)
    ensures AdvanceIntended(lim, now) == Advance(lim, now)
  {
    if lim.limit.Limited? {
      var l, t, b := lim.limit, lim.tokens, lim.burst;
      var q := l.perNanos / l.events;
      var last := Min(lim.last, now);
      var cap := TokensToDuration(l, b - t);
      ExactTokensToDuration(l, b - t);
      ExactDurationToTokens(l, b - t);
      var elapse := Min(now - last, cap);
      if t <= b {
        if now - last <= cap {
          DurationToTokensMonotone(l, now - last, cap);
        } else {
          DurationToTokensMonotone(l, cap, now - last);
        }
      } else {
        DurationToTokensMonotone(l, 0, now - last);
      }
    }
  }

  /** Consequently the whole transition agrees for such rates. */
  lemma ExactRatesReserveAgree(lim: Limiter, now: int, n: int, maxFutureTime: MaxFutureTime)
    requires lim.limit.Inf? || WholeNanosPerToken(lim.limit)
    ensures ReserveIntended(lim, now, n, maxFutureTime) == Reserve(lim, now, n, maxFutureTime)
  {
    ExactRatesAgree(lim, now);
  }
}

=== FILE: rate_traces.dfy ===
/**
 Sequences of `AllowN` calls: the admission traces the limiter's own tests
 expect, and the count of admissions when many callers arrive at one instant.
 Instants are offsets from any `t0` at least a second past the zero instant,
 so that a fresh bucket has had time to fill.
 */
module RateLimitTraces {
  import opened RateLimit
  import opened RateLimitProperties

  /** One `AllowN(t, n)` call. */
  datatype Call = Call(t: int, n: int)

  /** The answers of a sequence of `AllowN` calls made one after another. */
  function Run(lim: Limiter, calls: seq<Call>): (oks: seq<bool>)
    ensures |oks| == |calls|
    decreases |calls|
  {
    if calls == [] then []
    else
      var r := AllowN(lim, calls[0].t, calls[0].n);
      [r.ok] + Run(r.next, calls[1..])
  }

  /** The number of admissions among `oks`. */
  function Admitted(oks: seq<bool>): nat
    decreases |oks|
  {
    if oks == [] then 0 else (if oks[0] then 1 else 0) + Admitted(oks[1..])
  }

  function Repeat(c: Call, k: nat): (calls: seq<Call>)
    ensures |calls| == k && forall i :: 0 <= i < k ==> calls[i] == c
  {
    if k == 0 then [] else [c] + Repeat(c, k - 1)
  }

  /** A tenth of a second. */
  const D: int := 100_000_000

  /** One call of `Run`: the first answer, then the rest from the state the
      first call leaves. */
  lemma RunStep(lim: Limiter, calls: seq<Call>, first: Allowed, rest: seq<bool>)
    requires calls != [] && first == AllowN(lim, calls[0].t, calls[0].n)
    requires Run(first.next, calls[1..]) == rest
    ensures Run(lim, calls) == [first.ok] + rest
  {
  }

  /** The calls of `TestLimiterBurst1`. */
  function Burst1Calls(t0: int): seq<Call> {
    [Call(t0, 1), Call(t0, 1), Call(t0, 1),
     Call(t0 + D, 1), Call(t0 + D, 1), Call(t0 + D, 1),
     Call(t0 + 2 * D, 2), Call(t0 + 2 * D, 1), Call(t0 + 2 * D, 1)]
  }

  /** The last six calls of the burst-of-one test, from the state the first
      three leave. */
  lemma Burst1TraceTail(t0: int)
    ensures Run(Limiter(Hz(10), 0, 1, t0), Burst1Calls(t0)[3..]) == [true, false, false, false, true, false]
  {
    var l := Hz(10);
    var c := Burst1Calls(t0);
    var s1, s2, s3 := Limiter(l, 0, 1, t0), Limiter(l, 0, 1, t0 + D), Limiter(l, 0, 1, t0 + 2 * D);
    assert AllowN(s3, c[8..][0].t, c[8..][0].n) == Allowed(s3, false);
    RunStep(s3, c[8..], Allowed(s3, false), []);
    assert AllowN(s2, c[7..][0].t, c[7..][0].n) == Allowed(s3, true);
    RunStep(s2, c[7..], Allowed(s3, true), [false]);
    assert AllowN(s2, c[6..][0].t, c[6..][0].n) == Allowed(s2, false);
    RunStep(s2, c[6..], Allowed(s2, false), [true, false]);
    assert AllowN(s2, c[5..][0].t, c[5..][0].n) == Allowed(s2, false);
    RunStep(s2, c[5..], Allowed(s2, false), [false, true, false]);
    assert AllowN(s2, c[4..][0].t, c[4..][0].n) == Allowed(s2, false);
    RunStep(s2, c[4..], Allowed(s2, false), [false, false, true, false]);
    assert AllowN(s1, c[3..][0].t, c[3..][0].n) == Allowed(s2, true);
    RunStep(s1, c[3..], Allowed(s2, true), [false, false, false, true, false]);
  }

  /** The burst-of-one test after its first call. */
  lemma Burst1TraceAfterFirst(t0: int)
    ensures Run(Limiter(Hz(10), 0, 1, t0), Burst1Calls(t0)[1..]) == [false, false, true, false, false, false, true, false]
  {
    var c := Burst1Calls(t0);
    var s1 := Limiter(Hz(10), 0, 1, t0);
    Burst1TraceTail(t0);
    assert AllowN(s1, c[2..][0].t, c[2..][0].n) == Allowed(s1, false);
    RunStep(s1, c[2..], Allowed(s1, false), [true, false, false, false, true, false]);
    assert AllowN(s1, c[1..][0].t, c[1..][0].n) == Allowed(s1, false);
    RunStep(s1, c[1..], Allowed(s1, false), [false, true, false, false, false, true, false]);
  }

  lemma Burst1Trace(t0: int)
    requires Second <= t0
    ensures Run(NewLimiter(Hz(10), 1), Burst1Calls(t0))
         == [true, false, false, true, false, false, false, true, false]
  {
    var c := Burst1Calls(t0);
    var s0, s1 := NewLimiter(Hz(10), 1), Limiter(Hz(10), 0, 1, t0);
    Burst1TraceAfterFirst(t0);
    assert AllowN(s0, c[0].t, c[0].n) == Allowed(s1, true);
    RunStep(s0, c, Allowed(s1, true), [false, false, true, false, false, false, true, false]);
  }

  /** The calls of `TestLimiterBurst3`. */
  function Burst3Calls(t0: int): seq<Call> {
    [Call(t0, 2), Call(t0, 1), Call(t0, 1),
     Call(t0 + D, 1), Call(t0 + D, 1),
     Call(t0 + 2 * D, 1), Call(t0 + 3 * D, 1),
     Call(t0 + 4 * D, 0), Call(t0 + 5 * D, 0), Call(t0 + 6 * D, 3)]
  }

  /** The last five calls of the burst-of-three test, from the state the
      first five leave. */
  lemma Burst3TraceTail(t0: int)
    ensures Run(Limiter(Hz(10), 0, 3, t0 + D), Burst3Calls(t0)[5..]) == [true, true, true, true, true]
  {
    var l := Hz(10);
    var c := Burst3Calls(t0);
    assert AllowN(Limiter(l, 2, 3, t0 + 5 * D), c[9..][0].t, c[9..][0].n) == Allowed(Limiter(l, 0, 3, t0 + 6 * D), true);
    RunStep(Limiter(l, 2, 3, t0 + 5 * D), c[9..], Allowed(Limiter(l, 0, 3, t0 + 6 * D), true), []);
    assert AllowN(Limiter(l, 1, 3, t0 + 4 * D), c[8..][0].t, c[8..][0].n) == Allowed(Limiter(l, 2, 3, t0 + 5 * D), true);
    RunStep(Limiter(l, 1, 3, t0 + 4 * D), c[8..], Allowed(Limiter(l, 2, 3, t0 + 5 * D), true), [true]);
    assert AllowN(Limiter(l, 0, 3, t0 + 3 * D), c[7..][0].t, c[7..][0].n) == Allowed(Limiter(l, 1, 3, t0 + 4 * D), true);
    RunStep(Limiter(l, 0, 3, t0 + 3 * D), c[7..], Allowed(Limiter(l, 1, 3, t0 + 4 * D), true), [true, true]);
    assert AllowN(Limiter(l, 0, 3, t0 + 2 * D), c[6..][0].t, c[6..][0].n) == Allowed(Limiter(l, 0, 3, t0 + 3 * D), true);
    RunStep(Limiter(l, 0, 3, t0 + 2 * D), c[6..], Allowed(Limiter(l, 0, 3, t0 + 3 * D), true), [true, true, true]);
    assert AllowN(Limiter(l, 0, 3, t0 + D), c[5..][0].t, c[5..][0].n) == Allowed(Limiter(l, 0, 3, t0 + 2 * D), true);
    RunStep(Limiter(l, 0, 3, t0 + D), c[5..], Allowed(Limiter(l, 0, 3, t0 + 2 * D), true), [true, true, true, true]);
  }

  lemma Burst3TraceMiddle(t0: int)
    ensures Run(Limiter(Hz(10), 0, 3, t0), Burst3Calls(t0)[3..]) == [true, false, true, true, true, true, true]
  {
    var l := Hz(10);
    var c := Burst3Calls(t0);
    Burst3TraceTail(t0);
    assert AllowN(Limiter(l, 0, 3, t0 + D), c[4..][0].t, c[4..][0].n) == Allowed(Limiter(l, 0, 3, t0 + D), false);
    RunStep(Limiter(l, 0, 3, t0 + D), c[4..], Allowed(Limiter(l, 0, 3, t0 + D), false), [true, true, true, true, true]);
    assert AllowN(Limiter(l, 0, 3, t0), c[3..][0].t, c[3..][0].n) == Allowed(Limiter(l, 0, 3, t0 + D), true);
    RunStep(Limiter(l, 0, 3, t0), c[3..], Allowed(Limiter(l, 0, 3, t0 + D), true), [false, true, true, true, true, true]);
  }

  /** The burst-of-three test after its first call. */
  lemma Burst3TraceAfterFirst(t0: int)
    ensures Run(Limiter(Hz(10), 1, 3, t0), Burst3Calls(t0)[1..]) == [true, false, true, false, true, true, true, true, true]
  {
    var l := Hz(10);
    var c := Burst3Calls(t0);
    Burst3TraceMiddle(t0);
    assert AllowN(Limiter(l, 0, 3, t0), c[2..][0].t, c[2..][0].n) == Allowed(Limiter(l, 0, 3, t0), false);
    RunStep(Limiter(l, 0, 3, t0), c[2..], Allowed(Limiter(l, 0, 3, t0), false), [true, false, true, true, true, true, true]);
    assert AllowN(Limiter(l, 1, 3, t0), c[1..][0].t, c[1..][0].n) == Allowed(Limiter(l, 0, 3, t0), true);
    RunStep(Limiter(l, 1, 3, t0), c[1..], Allowed(Limiter(l, 0, 3, t0), true), [false, true, false, true, true, true, true, true]);
  }

  lemma Burst3Trace(t0: int)
    requires Second <= t0
    ensures Run(NewLimiter(Hz(10), 3), Burst3Calls(t0))
         == [true, true, false, true, false, true, true, true, true, true]
  {
    var c := Burst3Calls(t0);
    var s0 := NewLimiter(Hz(10), 3);
    Burst3TraceAfterFirst(t0);
    assert AllowN(s0, c[0].t, c[0].n) == Allowed(Limiter(Hz(10), 1, 3, t0), true);
    RunStep(s0, c, Allowed(Limiter(Hz(10), 1, 3, t0), true), [true, false, true, false, true, true, true, true, true]);
  }

  /** Repeated single-event calls at the instant of the last update admit as
      many events as the balance holds and no more. */
  lemma {:induction false} RepeatedAllowAtOneInstant(lim: Limiter, t: int, k: nat)
    requires AtMostOnePerNano(lim.limit) && WithinCapacity(lim) && lim.last == t
    ensures Admitted(Run(lim, Repeat(Call(t, 1), k))) == Min(k, lim.tokens)
    decreases k
  {
    if k > 0 {
      var calls := Repeat(Call(t, 1), k);
      assert calls[1..] == Repeat(Call(t, 1), k - 1);
      var r := AllowN(lim, t, 1);
      AllowIffBalanceCovers(lim, t, 1);
      RepeatedAllowAtOneInstant(r.next, t, k - 1);
    }
  }

  /** Callers arriving at one instant at a fresh limiter of one event per
      second and burst five: exactly five are admitted once there are five or
      more of them (five of fifteen in `TestSimultaneousRequests`). */
  lemma SimultaneousRequests(t: int, k: nat)
    requires 5 * Second <= t
    ensures Admitted(Run(NewLimiter(Hz(1), 5), Repeat(Call(t, 1), k))) == Min(k, 5)
  {
    if k > 0 {
      var s0 := NewLimiter(Hz(1), 5);
      var calls := Repeat(Call(t, 1), k);
      assert calls[1..] == Repeat(Call(t, 1), k - 1);
      assert AllowN(s0, t, 1) == Allowed(Limiter(Hz(1), 4, 5, t), true);
      RepeatedAllowAtOneInstant(Limiter(Hz(1), 4, 5, t), t, k - 1);
    }
  }
}

=== FILE: store.dfy ===
/**
 The in-memory store of metric names recorded per pod.

 Go keeps a `map[string]map[string]struct{}`; here a pod id maps to the set of
 its metric names. The store is a value: every operation returns the store it
 leaves behind together with its `error` result, which is never set.
 */
module MetricsStore {
  import opened Wrappers

  /** An error a store could report; the in-memory store reports none. */
  datatype Error = Error(message: string)

  datatype MemoryStore = MemoryStore(podMetricsRecords: map<string, set<string>>)

  /** The store after an operation and the operation's error result. */
  datatype Reply = Reply(store: MemoryStore, err: Option<Error>)

  /** The metrics recorded for `id`; none for an id never added. */
  function Recorded(s: MemoryStore, id: string): set<string> {
    if id in s.podMetricsRecords then s.podMetricsRecords[id] else {}
  }

  predicate Distinct(xs: seq<string>) {
    forall i, j :: 0 <= i < j < |xs| ==> xs[i] != xs[j]
  }

  function NewMemoryStore(): (s: MemoryStore)
    ensures forall id :: id !in s.podMetricsRecords && Recorded(s, id) == {}
  {
    MemoryStore(map[])
  }

  /** The recorded metrics of `id`, each exactly once, in an order the store
      does not promise. */
  method GetPodMetricsRecords(s: MemoryStore, id: string) returns (metrics: seq<string>, err: Option<Error>)
    ensures err == None
    ensures forall m :: m in metrics <==> m in Recorded(s, id)
    ensures Distinct(metrics)
    ensures |metrics| == |Recorded(s, id)|
  {
    err := None;
    metrics := [];
    if id !in s.podMetricsRecords {
      return;
    }
    var records := s.podMetricsRecords[id];
    var remaining := records;
    while remaining != {}
      invariant remaining <= records
      invariant forall m :: m in metrics <==> m in records && m !in remaining
      invariant Distinct(metrics)
      invariant |metrics| + |remaining| == |records|
      decreases remaining
    {
      var m :| m in remaining;
      metrics := metrics + [m];
      remaining := remaining - {m};
    }
  }

  /** `records` with every element of `metrics` inserted, first to last. */
  function InsertAll(records: set<string>, metrics: seq<string>): (r: set<string>)
    ensures forall m :: m in r <==> m in records || m in metrics
    decreases |metrics|
  {
    if metrics == [] then records
    else InsertAll(records + {metrics[0]}, metrics[1..])
  }

  /** Records `metrics` for `id`, creating the entry if it is missing; the
      records of every other id are untouched. */
  function AddPodMetricsRecords(s: MemoryStore, id: string, metrics: seq<string>): (r: Reply)
    ensures r.err == None
    ensures id in r.store.podMetricsRecords
    ensures forall m :: m in Recorded(r.store, id) <==> m in Recorded(s, id) || m in metrics
    ensures r.store.podMetricsRecords - {id} == s.podMetricsRecords - {id}
  {
    var records := InsertAll(Recorded(s, id), metrics);
    Reply(MemoryStore(s.podMetricsRecords[id := records]), None)
  }

  /** Deleting is not implemented: the store is left as it is. */
  function DeletePodMetricsRecords(s: MemoryStore, id: string, metrics: seq<string>): (r: Reply)
    ensures r.store == s && r.err == None
  {
    Reply(s, None)
  }

  /** Resetting is not implemented: the store is left as it is. */
  function ResetPodMetricsRecords(s: MemoryStore, id: string, metrics: seq<string>): (r: Reply)
    ensures r.store == s && r.err == None
  {
    Reply(s, None)
  }

  /** Only the set of names added matters: duplicates collapse and the order
      of the list is irrelevant. */
  lemma AddDependsOnlyOnElements(s: MemoryStore, id: string, a: seq<string>, b: seq<string>)
    requires forall m :: m in a <==> m in b
    ensures AddPodMetricsRecords(s, id, a) == AddPodMetricsRecords(s, id, b)
  {
    assert InsertAll(Recorded(s, id), a) == InsertAll(Recorded(s, id), b);
  }

  /** Adding two lists one after the other is adding their concatenation. */
  lemma AddTwiceIsAddConcatenation(s: MemoryStore, id: string, a: seq<string>, b: seq<string>)
    ensures AddPodMetricsRecords(AddPodMetricsRecords(s, id, a).store, id, b) == AddPodMetricsRecords(s, id, a + b)
  {
    var once := AddPodMetricsRecords(s, id, a).store;
    assert InsertAll(Recorded(once, id), b) == InsertAll(Recorded(s, id), a + b);
  }

  /** Adding the same list twice is adding it once. */
  lemma AddIdempotent(s: MemoryStore, id: string, metrics: seq<string>)
    ensures AddPodMetricsRecords(AddPodMetricsRecords(s, id, metrics).store, id, metrics)
         == AddPodMetricsRecords(s, id, metrics)
  {
    AddTwiceIsAddConcatenation(s, id, metrics, metrics);
    AddDependsOnlyOnElements(s, id, metrics + metrics, metrics);
  }

  /** Adds for different pods commute. */
  lemma AddsForDifferentPodsCommute(s: MemoryStore, i: string, a: seq<string>, j: string, b: seq<string>)
    requires i != j
    ensures AddPodMetricsRecords(AddPodMetricsRecords(s, i, a).store, j, b).store
         == AddPodMetricsRecords(AddPodMetricsRecords(s, j, b).store, i, a).store
  {
  }

  /** Adding an empty list for a new pod creates an entry without metrics. */
  lemma AddEmptyCreatesEmptyEntry(s: MemoryStore, id: string)
    requires id !in s.podMetricsRecords
    ensures AddPodMetricsRecords(s, id, []).store.podMetricsRecords == s.podMetricsRecords[id := {}]
  {
  }
}

=== FILE: wrappers.dfy ===
/** Optional values, used for Go's `error` results. */
module Wrappers {
  datatype Option<+T> = None | Some(value: T)
}
